=== FILE: README.md ===
# FileSplitter, modelled in Dafny

FileSplitter is a command-line tool. It cuts large text files (typically CSV) into numbered output files of at most `MaxLinesPerFile` data lines each. It first reads a block of header rows from the top of each input file. It then copies that header block into the first output file, and into every output file when `RepeatHeaderRows` is set. This project models the per-file splitting core of `Program.cs`:

- `SplitFile` with its read loop, and `ReadHeaderRows`, `GetOutputFile`, `WriteHeaderRows` and `GetOutputFilename`.
- The choice of the output base name (lines 113-115).
- The rule that decides between one literal file and a directory enumeration (line 79).
- The checks `Main` applies to the parsed options (lines 43-50).

The file system is abstracted away. An input file is its path plus the sequence of its lines. The result of splitting it is the sequence of output files, each a name plus the lines written to it.

Modules, one per file:

- `Wrappers` (`wrappers.dfy`): `Option` and `Result`.
- `DotNet` (`dotnet.dfy`): the C# integer widths, `char.IsWhiteSpace`, `string.IsNullOrWhiteSpace`, and the numeric format `"000000"` together with its round trip.
- `Paths` (`paths.dfy`): `Path.GetFileName`, `GetExtension`, `GetFileNameWithoutExtension` and `Combine`, with the separators of .NET on Windows.
- `CommandLine` (`options.dfy`): the options record, the defaults `Main` sets, and `Main`'s validation.
- `Discovery` (`discovery.dfy`): which files `Split` hands to `SplitFile`.
- `Sequences` (`sequences.dfy`): two general facts about sequences, the last element and how a slice grows.
- `Chunking` (`chunking.dfy`): cutting a sequence into consecutive pieces of a fixed size. This is the reference definition the rotation is proved against.
- `FileSplitter` (`splitter.dfy`): the specification on values. It covers output naming, header capture, the rotation test, the layout of output files, and the session state as values (`CountLine` is `GetOutputFile`, `Replay` is the read loop). `SplitOutcome` is the result of splitting one file. The module also holds the properties of that result: lossless, bounded, numbered from 1 without gaps, and headers placed as configured.
- `Session` (`session.dfy`): the imperative program.
  - `LineReader` stands for the `StreamReader` and `OutputWriter` for a `StreamWriter`.
  - `SplitSession` is a class that holds the writer, the closed files, `lineCounter` and `fileCounter`, which the source passes by `ref`.
  - The methods `ReadHeaderRows`, `WriteHeaderRows`, `SplitSession.GetOutputFile` with its rotation `OpenNextFile`, `WriteDataLines` (the read loop of `SplitFile`), `CopyNextLine` and `CopyLine` (one test of its condition, one turn of its body), `FinishFile` (the final close) and `SplitFile` are proved against `FileSplitter`.
  - `LineReader` and `OutputWriter` carry only what the splitter relies on: `ReadLine` returns the next line or null, `WriteLine` appends, and `Close` ends writing.

`DotNet` and `Paths` model the .NET library calls the code makes, as far as the splitter depends on them. They are not part of Program.cs, so their rows cite the lines that call them.

`SplitFile` is proved to return exactly `SplitOutcome`. So every property proved about `SplitOutcome` also holds for what the imperative method produces.

Where the code and its documented intent differ, the model follows the code:

- **An input with no data lines after the header.** The intent is "zero output files". The code never opens a writer in that case and dereferences `null` at the final `Flush` (line 128). The model returns `Err(NoOutputFileOpened)`. In the source that `NullReferenceException` is not caught, because `Main` catches only `OptionException` (line 54). It leaves the `foreach` of lines 81-84, so the remaining input files are not split and the compression pass of lines 87-94 does not run.
- **A negative `MaxLinesPerFile`.** The intent is that the limit is positive. `Main` refuses only `0`, so a negative limit passes. With a negative limit every data line goes into a file of its own (`ChunkSize` is 1).
- **Validation failures.** The intent is that `Main` reports them and returns cleanly. The code throws `InvalidOperationException`, which nothing catches. The model returns a `ConfigError`.
- **An input file name that is all extension.** A file such as `in\.csv` is meant to give outputs inside the output folder. Its derived base is empty, `Path.Combine(folder, "")` returns the folder itself, and line 185 then gives names such as `out_000001.csv` beside the folder `out` (`FileSplitter.ExtensionOnlyNameLandsBesideFolder`, `FileSplitter.ExtensionOnlyNameExample`). The model keeps this naming.
- **The limit's range.** `MaxLinesPerFile` is a `long` (CommandLineOptions.cs:19), but `-m` is parsed as an `int` (line 23). So it never exceeds int.MaxValue, and the sentinel of line 109 always makes the first data line open file 1. `Session.SplitFile` requires exactly that range.

## Model

| member | source | states |
|---|---|---|
| Session.SplitFile | Program.cs:107-131 | Splitting an input file returns exactly `SplitOutcome`: the header block is captured, the data lines are cut into pieces of `ChunkSize` lines, and piece i becomes output file i+1. With no data lines the result is the failure at the final flush. Every writer it opened is closed on return (lines 128-129 and 163-167), and writer i is the one opened on the name of output file i. |
| Session.WriteDataLines | Program.cs:119-126 | The read loop consumes every remaining line and leaves the session in the state `Replay` gives for those lines, which is one `GetOutputFile` and one write per line. Every writer it replaced is closed and was opened on the name of the file it produced. |
| Session.CopyNextLine | Program.cs:122-125 | One test of the loop condition: at the end of the input nothing changes; otherwise exactly one line is read and copied, so the session becomes `Replay` of the lines read so far. |
| Session.CopyLine | Program.cs:124-125 | One turn of the loop body takes the session from `Replay` of the lines seen to `Replay` of those lines plus the new one, keeping every replaced writer closed. |
| Session.FinishFile | Program.cs:128-129 | With an open writer, it is closed and the result is the closed files followed by its contents; with none, the result is the null-dereference failure. Every writer is closed afterwards. |
| Session.ReadHeaderRows | Program.cs:133-148 | Consumes `HeaderSpan(numHeaderRows, remaining)` lines: none when the count is not positive, and no more than remain. Returns the non-blank ones among them, in order. |
| Session.WriteHeaderRows | Program.cs:150-156 | The writer's contents grow by exactly the header rows, in order. |
| Session.LineReader.ReadLine | Program.cs:122 | `StreamReader.ReadLine`: the next line and one step forward, or null with no step at the end of the input. |
| Session.OutputWriter.WriteLine | Program.cs:125 | `StreamWriter.WriteLine`: the line is appended to the writer's contents. |
| Session.OutputWriter.Close | Program.cs:129 | `StreamWriter.Close`: the writer is no longer open. |
| Session.SplitSession.GetOutputFile | Program.cs:158-181 | The session's new state is `CountLine` of its old state. The writer stays the same or is a fresh one. It is non-null afterwards whenever a file was open or line 161 fires. When a fresh writer replaces an old one, the old one is closed and recorded after the earlier replaced writers, which all stay closed. |
| Session.SplitSession.constructor | Program.cs:109-116 | The session starts with no writer, no closed file, the sentinel counter `long.MaxValue - 1` and file counter 0 (`InitialState`). |
| Session.SplitSession.OpenNextFile | Program.cs:163-177 | The open file, if any, is closed and recorded with its writer; file `fileCounter + 1` is opened with a fresh writer holding `FileHeader`, and the counter restarts at 1. |
| FileSplitter.CountLine | Program.cs:158-181 | With the counter below `long.MaxValue`, a file that was open stays open after counting a line. |
| FileSplitter.Emit | Program.cs:125 | Definition: the line goes to the end of the open file. Its effect is stated by `TrackedFirstLine`, `TrackedRotation` and `TrackedSameFile`. |
| FileSplitter.Replay | Program.cs:119-126 | After the loop a file is open exactly when there was at least one data line. With no file open the counter is still the sentinel; otherwise it lies between 1 and `ChunkSize`, for every limit `-m` can set. |
| FileSplitter.TrackedStep | Program.cs:122-126 | One loop iteration preserves the invariant `Tracks`: the files are the layout of the chunked data lines, `fileCounter` is the number of pieces, and `lineCounter` is the length of the last piece. The counter stays below `long.MaxValue`, for every limit `-m` can set. |
| FileSplitter.TrackedFirstLine | Program.cs:109-110 | The first data line opens file 1, which holds the header block followed by that line. |
| FileSplitter.FirstLineOpensFileOne | Program.cs:109-177 | From the initial state, counting and writing the first line gives exactly one open file, number 1, holding its header and that line, with both counters at 1. |
| FileSplitter.LayoutSinglePiece | Program.cs:172-177 | A single piece lays out as file 1 alone. |
| FileSplitter.ReplaySnoc | Program.cs:122-126 | For every limit `-m` can set, a file is open when each further line arrives, and the loop over one more line is one more `GetOutputFile` and write. |
| FileSplitter.TrackedRotation | Program.cs:161-172 | A line arriving after a full piece closes the open file and opens the next number, holding its header and that line. |
| FileSplitter.TrackedSameFile | Program.cs:161 | A line arriving while the last piece is not full is appended to the open file, and no file is opened. |
| FileSplitter.ReplayTracks | Program.cs:119-126 | For every input, the loop's final state tracks the chunking of the data lines. |
| FileSplitter.ReplayMatchesOutcome | Program.cs:116-129 | The loop's final state has no file exactly when `SplitOutcome` fails; otherwise its files are `SplitOutcome`'s files. |
| FileSplitter.SplitOutcome | Program.cs:118-129 | Splitting fails exactly when no line remains after the header (an empty input, or no more lines than `NumHeaderRows`). Otherwise at least one file is produced. |
| FileSplitter.OutputIsLosslessAndBounded | Program.cs:122-126 | Each file is its header followed by its data lines, and the data lines of all files, in file order, are exactly the input after the header. Each file holds between 1 and `ChunkSize` data lines, and every file but the last is full. With a positive limit no file exceeds `MaxLinesPerFile`. |
| FileSplitter.OutputFileCount | Program.cs:169-170 | With L data lines and chunk size M there are ceil(L / M) output files. |
| FileSplitter.OutputNamesNumbered | Program.cs:169-172 | File i (from 0) is named with number i+1, so numbering starts at 1 with no gaps, and no two files share a name. |
| FileSplitter.LayoutDataLines | Program.cs:174-177 | File i of a layout is `FileHeader(i+1)` followed by piece i, so removing the headers gives back the pieces. |
| FileSplitter.LayoutNamesDistinct | Program.cs:172 | The files of a layout have pairwise distinct names. |
| FileSplitter.LayoutAppendPiece | Program.cs:169-172 | Adding a piece adds one file, numbered next, at the end. |
| FileSplitter.LayoutExtendLastPiece | Program.cs:125 | Extending the last piece by a line extends only the last file, by that line. |
| FileSplitter.HeaderCapture | Program.cs:133-148 | The span is the header count clipped to [0, number of lines]. The header block is no longer than the span and holds only non-blank lines from it. With no blank line in the span, the block is exactly that prefix. |
| FileSplitter.HeaderSpan | Program.cs:138-140 | Definition: how many lines the header loop reads. Its bounds are stated by `HeaderCapture`. |
| FileSplitter.HeaderRows | Program.cs:133-148 | Definition: the non-blank lines among those the header loop reads. Stated by `HeaderCapture` and, for the imperative loop, `Session.ReadHeaderRows`. |
| FileSplitter.NonBlank | Program.cs:141-144 | The kept rows are no more than the input rows. What is kept, and in which order, is stated by `NonBlankFilters` and `NonBlankConcat`. |
| FileSplitter.NonBlankFilters | Program.cs:141-144 | A row is kept exactly when it occurs in the input and is not null or white space. When no row is blank, all rows are kept. |
| FileSplitter.NonBlankConcat | Program.cs:138-145 | Filtering the concatenation of two blocks of rows is filtering each and concatenating, so kept rows keep their input order. |
| FileSplitter.SentinelOpensFirstFile | Program.cs:109-161 | The sentinel `long.MaxValue - 1`, once incremented, exceeds the limit exactly when the limit is below `long.MaxValue`, so for every limit `-m` can set the first line opens a file. |
| FileSplitter.RotationDue | Program.cs:161 | Definition: line 161 as written, the incremented counter exceeds the limit. Its meaning is stated by `SentinelOpensFirstFile` and `RotationDueWhenPieceFull`. |
| FileSplitter.RotationDueWhenPieceFull | Program.cs:161-170 | With 1..ChunkSize lines in the open file, line 161 fires exactly when the file already holds a full piece. |
| FileSplitter.FileHeader | Program.cs:174-177 | Definition: the header block when `RepeatHeaderRows` is set or it is file 1, otherwise nothing. Where it lands is stated by `LayoutDataLines` and `OutputIsLosslessAndBounded`. |
| FileSplitter.GetOutputFilename | Program.cs:183-186 | Definition: `Path.Combine(folder, base)`, `_`, the number in format `"000000"`, the extension. Its shape and injectivity are stated by `OutputFilenameShape` and `OutputFilenamesDistinct`. |
| FileSplitter.OutputFilenameShape | Program.cs:183-186 | An output name is the combined folder and base, then `_`, then at least six digits, then the extension. Below one million those are exactly six digits that read back as the file number. |
| FileSplitter.OutputFilenamesDistinct | Program.cs:183-186 | Different file numbers give different output names. |
| FileSplitter.Naming.FileNamesDistinct | Program.cs:183-186 | For one input file, different file numbers give different names. |
| FileSplitter.OutputFilenameBase | Program.cs:113-114 | Definition: the configured base unless it is blank or the pattern holds `*`, otherwise the input's stem. Stated by `ConfiguredBaseUsed`, `DerivedNameKeepsInputName` and `StarInDirectoryIgnoresConfiguredBase`. |
| FileSplitter.NamingFor | Program.cs:113-115 | Definition: the output folder, `OutputFilenameBase` and the input's extension, fixed for one input file. |
| FileSplitter.DerivedNameKeepsInputName | Program.cs:113-115 | Without a usable configured base, and for an input file name that is not empty and does not end in `.`, the output name is the input's file name with `_NNNNNN` inserted before its extension. (A trailing `.` is dropped by `GetFileNameWithoutExtension` and is not restored.) |
| FileSplitter.ExtensionOnlyNameLandsBesideFolder | Program.cs:113-115 | Without a usable configured base, an input whose file name is all extension (such as `.csv`) gives an empty base, and every output name is the output folder's own path followed by `_NNNNNN` and the extension, so the files land beside the folder rather than inside it. |
| FileSplitter.ExtensionOnlyNameExample | Program.cs:113-115 | The input `in\.csv` is such a file: output file n is named after the folder with `_NNNNNN.csv` appended, for example `out_000001.csv` for the folder `out`. |
| FileSplitter.ConfiguredBaseUsed | Program.cs:113-114 | A non-blank configured base is used as given when the pattern has no `*`. |
| FileSplitter.StarInDirectoryIgnoresConfiguredBase | Program.cs:79-114 | A `*` only in the directory part of the pattern yields that one literal path, yet the configured base is still ignored and the input's own stem is used. Under the Windows path rules assumed here no directory name holds a `*`, so opening that path (line 118) fails; the quirk shows only where a directory name may hold one. |
| DotNet.ZeroPaddedRoundTrip | Program.cs:185 | Format `"000000"` produces digits only: at least six, exactly six below one million, and they parse back to the number. |
| DotNet.DecimalRoundTrip | Program.cs:185 | The decimal digits of a number parse back to it. |
| DotNet.DecimalWidth | Program.cs:185 | For k ≥ 1, a number has at most k decimal digits exactly when it is below 10^k. (For k = 0 this does not hold, because 0 is written `0`.) |
| DotNet.LeadingZerosIgnored | Program.cs:185 | Zero padding does not change the value read back. |
| Paths.FileNameIsLastPart | Program.cs:76 | `GetFileName` is the longest suffix without a separator: it ends the path, holds no separator, and is preceded by one. |
| Paths.LastIndexOfIsLast | Program.cs:114-115 | `LastIndexOf` returns an occurrence of the character with none after it, or -1 when there is none. |
| Paths.CombineShape | Program.cs:185 | `Combine` ends with its second argument. An empty second argument gives the first and a rooted one replaces it. Otherwise the result starts with the first. Between two non-empty parts at most one character is inserted, and the character just before the second part is a separator or volume separator. |
| Paths.FileNameSplitsAtExtension | Program.cs:114-115 | The file name is its stem followed by its extension, except that a name ending in `.` loses that dot. |
| Paths.ExtensionShape | Program.cs:115 | An extension is empty, or a `.` followed by at least one character and no further `.`. |
| Paths.NoDotKeepsName | Program.cs:114-115 | A file name without a `.` has no extension and is its own stem. |
| Discovery.InputFileQuery | Program.cs:75-79 | The pattern is enumerated exactly when its file-name part contains `*`, with that part as the search pattern and recursion as configured. Otherwise the query is the literal path. |
| Discovery.InputFiles | Program.cs:79 | Definition: the enumerated files for a wildcard query, otherwise the one literal path. Stated by `LiteralPatternIsSingleFile`. |
| Discovery.LiteralPatternIsSingleFile | Program.cs:76-79 | A pattern whose file-name part has no `*` yields exactly the one-element list holding the pattern, whatever the directory contains, even when its directory part holds a `*`. |
| CommandLine.Validate | Program.cs:43-50 | Options pass exactly when the pattern and the folder are not null or white space and the limit is not 0. The first failing check, in source order, names the error. |
| CommandLine.InitialOptions | Program.cs:16 | Definition: the object `Main` creates before parsing. Stated by `InitialOptionsNeedInputPattern`. |
| CommandLine.InitialOptionsNeedInputPattern | Program.cs:16 | The defaults `Main` starts from fail on the missing input pattern. |
| CommandLine.NegativeLimitAccepted | Program.cs:49-50 | A negative `MaxLinesPerFile` passes validation. |
| Chunking.Chunks | Program.cs:161-171 | The pieces concatenate back to the input. Each holds between 1 and `size` elements, and all but the last are full. |
| Chunking.ChunkCountBracket | Program.cs:169 | k pieces satisfy (k-1)·size < n <= k·size. |
| Chunking.ChunkCountIsCeiling | Program.cs:169 | The number of pieces is ceil(n / size). |
| Chunking.ChunksSnoc | Program.cs:161-170 | Appending one element opens a new piece when there is none or the last one is full, and extends the last piece otherwise. |

## Left out

- **File I/O.** `StreamReader`, `StreamWriter`, `Flush`, encodings and newline handling are left out. An input is a sequence of lines and an output file is the sequence of lines written to it.
- **Directory enumeration and the per-file `foreach` of `Split` (Program.cs:79-84).** `Directory.EnumerateFiles` is a file-system call with file-system-dependent order, so its result is a parameter of `Discovery.InputFiles`. The loop itself is not modelled. A failure in `SplitFile` ends it, and with it the whole program, because `Main` catches only `OptionException` (line 54).
- **`Path.GetDirectoryName` (Program.cs:75).** Its result is used only by the enumeration.
- **Gzip compression (Program.cs:86-105).** The compression algorithm is inside a library.
- **Command-line parsing with Mono.Options, `ShowHelp` and console output (Program.cs:18-41, 54-71).** These are a third-party parser and printing. Note that any value given to `-r` or `-s` sets the flag to true. `RepeatHeaderRows` defaults to true (line 16) and `-r` sets it to `r != null` (line 25), which is true for any value. So from the command line it is never false, and the branch of `FileSplitter.FileHeader` that gives a later file no header rows cannot be reached. In the same way `-s false` turns recursion on (line 29). `CommandLine.Validate` starts from the record the parser fills in.
- **`OverwriteOutputFiles` and `MaxFileSizeMB`.** They are carried in the record and never read by the split logic.
- **Invalid path characters.** The `Path` helpers do not model the exceptions for invalid characters.
- **Path semantics are assumed to be those of .NET on Windows.** `\` and `/` are both directory separators and `:` is the volume separator. The source does not fix a platform; under .NET on Unix `/` is the only separator and there is no volume separator, so names with `\` or `:` split differently there.
- **Session.SplitSession.GetOutputFile: `fileCounter` is an unbounded natural number.** The source's 32-bit `int` would wrap only after more than 2^31-1 output files.
- **Session.SplitFile: requires a limit of at most int.MaxValue.** That is every limit `-m` can set, because line 23 parses it as an `int`. A direct caller could store `long.MaxValue` in the `long` field. The sentinel would then never fire, no file would open, and line 125 would write to a null writer (`FileSplitter.SentinelOpensFirstFile` states the arithmetic). The program as shipped cannot reach that case.
- **FileSplitter.Replay: requires the same bound.** So do `ReplaySnoc`, `ReplayTracks`, `TrackedStep`, `TrackedFirstLine`, `FirstLineOpensFileOne`, `TrackedRotation`, `TrackedSameFile`, `ReplayMatchesOutcome` and the `Session` methods that run the loop, for the reason just given.
- **`CopyNextLine`, `CopyLine`, `FinishFile` and `SplitSession.OpenNextFile` are separate methods.** They are one test of the loop condition (line 122), one turn of the loop body (lines 124-125), the end of `SplitFile` (lines 128-129) and the rotation inside `GetOutputFile` (lines 163-177). Each does what those lines do.
- **Session.SplitFile: each writer is tied to its output file by name, not by contents.** The contents of the files are given by `r == SplitOutcome`, and a closed writer cannot be written to (`WriteLine` requires an open writer).
- **`WriteDataLines` is a separate method.** The read loop of `SplitFile` (lines 119-126) is its own method, called once by `SplitFile`. It does what the source's loop does.


=== FILE: chunking.dfy ===
/** Cutting a sequence of data lines into consecutive pieces of a fixed size:
    the reference against which the splitter's rotation is proved. */
module Chunking {
  import opened Sequences

  /** Concatenation of a sequence of sequences, in order. */
  function Flatten<T>(ss: seq<seq<T>>): seq<T>
  {
    if ss == [] then [] else ss[0] + Flatten(ss[1..])
  }

  /** `s` cut front to back into pieces of `size` elements; only the last
      piece may be shorter, and no piece is empty. */
  function Chunks<T>(s: seq<T>, size: nat): (cs: seq<seq<T>>)
    requires size > 0
    ensures Flatten(cs) == s
    ensures forall i | 0 <= i < |cs| :: 1 <= |cs[i]| <= size
    ensures forall i | 0 <= i < |cs| - 1 :: |cs[i]| == size
    decreases |s|
  {
    if s == [] then []
    else if |s| <= size then [s]
    else [s[..size]] + Chunks(s[size..], size)
  }

  /** All pieces but the last are full, so their number k satisfies
      (k - 1) * size < |s| <= k * size. */
  lemma {:induction false} ChunkCountBracket<T>(s: seq<T>, size: nat)
    requires size > 0
    ensures var k := |Chunks(s, size)|; (k - 1) * size < |s| <= k * size
    decreases |s|
  {
    if |s| > size {
      var k := |Chunks(s[size..], size)|;
      ChunkCountBracket(s[size..], size);
      assert |Chunks(s, size)| == k + 1;
      MulSucc(k - 1, size);
      MulSucc(k, size);
    } else if s != [] {
      assert |Chunks(s, size)| == 1;
    }
  }

  lemma MulSucc(k: int, size: int)
    ensures (k + 1) * size == k * size + size
  {
  }

  /** The number of pieces is the ceiling of |s| / size. */
  lemma ChunkCountIsCeiling<T>(s: seq<T>, size: nat)
    requires size > 0
    ensures |Chunks(s, size)| == (|s| + size - 1) / size
  {
    var k := |Chunks(s, size)|;
    ChunkCountBracket(s, size);
    assert (k - 1) * size == k * size - size;
    QuotientOfBracketed(|s| + size - 1, size, k);
  }

  lemma QuotientOfBracketed(a: int, b: int, k: int)
    requires b > 0 && k * b <= a < k * b + b
    ensures a / b == k
  {
    var q, r := a / b, a % b;
    assert a == q * b + r && 0 <= r < b;
    var d := q - k;
    assert d * b == q * b - k * b;
    ProductSign(d, b);
  }

  lemma ProductSign(d: int, b: int)
    requires b > 0
    ensures d >= 1 ==> d * b >= b
    ensures d <= -1 ==> d * b <= -b
  {
    assert d * b == (d - 1) * b + b;
    assert d * b == (d + 1) * b - b;
  }

  /** Appending one element either opens a new piece (when there is none or
      the last one is full) or extends the last piece. */
  lemma {:induction false} ChunksSnoc<T>(s: seq<T>, x: T, size: nat)
    requires size > 0
    ensures Chunks(s + [x], size) == Snoc(Chunks(s, size), x, size)
    decreases |s|
  {
    var s' := s + [x];
    if s == [] {
      assert s' == [x];
    } else if |s| < size {
      assert Chunks(s, size) == [s];
    } else if |s| == size {
      assert Chunks(s, size) == [s];
      assert s'[..size] == s && s'[size..] == [x];
    } else {
      var t := s[size..];
      assert s'[..size] == s[..size] && s'[size..] == t + [x];
      ChunksSnoc(t, x, size);
      SnocBehindFullPiece(s[..size], Chunks(t, size), x, size);
    }
  }

  /** What appending `x` does to a list of pieces. */
  function Snoc<T>(cs: seq<seq<T>>, x: T, size: nat): seq<seq<T>>
  {
    if cs == [] || |Last(cs)| >= size then cs + [[x]]
    else cs[..|cs| - 1] + [Last(cs) + [x]]
  }

  lemma SnocBehindFullPiece<T>(p: seq<T>, cs: seq<seq<T>>, x: T, size: nat)
    requires cs != []
    ensures Snoc([p] + cs, x, size) == [p] + Snoc(cs, x, size)
  {
    var full := [p] + cs;
    assert Last(full) == Last(cs);
    assert full[..|full| - 1] == [p] + cs[..|cs| - 1];
  }
}

=== FILE: discovery.dfy ===
/** Which input files `Split` hands to `SplitFile`: the given path itself, or
    whatever a directory enumeration returns when the file-name part of the
    pattern holds a '*'. The enumeration itself is a call into the file
    system and stays outside the model; its result is a parameter. */
module Discovery {
  import Paths

  datatype SearchOption = TopDirectoryOnly | AllDirectories

  /** What `Split` asks for: the literal path, or an enumeration of the
      pattern's directory with the pattern's file-name part. */
  datatype FileQuery = Literal(path: string) | Enumerate(searchPattern: string, option: SearchOption)

  function InputFileQuery(filePattern: string, recurseSubfolders: bool): (q: FileQuery)
    ensures q.Literal? <==> '*' !in Paths.GetFileName(filePattern)
    ensures q.Literal? ==> q.path == filePattern
    ensures q.Enumerate? ==>
              && q.searchPattern == Paths.GetFileName(filePattern)
              && (q.option == AllDirectories <==> recurseSubfolders)
  {
    var namePattern := Paths.GetFileName(filePattern);
    if '*' in namePattern then
      Enumerate(namePattern, if recurseSubfolders then AllDirectories else TopDirectoryOnly)
    else
      Literal(filePattern)
  }

  /** The list `Split` iterates over; `enumerated` is what the directory
      enumeration returned. */
  function InputFiles(q: FileQuery, enumerated: seq<string>): seq<string>
  {
    match q
    case Literal(path) => [path]
    case Enumerate(_, _) => enumerated
  }

  /** A pattern whose file-name part holds no '*' is split as exactly that
      one file, whatever the directory holds; a '*' in the directory part
      alone does not make a wildcard. */
  lemma LiteralPatternIsSingleFile(filePattern: string, recurseSubfolders: bool, enumerated: seq<string>)
    requires '*' !in Paths.GetFileName(filePattern)
    ensures InputFiles(InputFileQuery(filePattern, recurseSubfolders), enumerated) == [filePattern]
  {
  }
}

=== FILE: dotnet.dfy ===
/** The parts of the .NET base library that the splitter relies on, with the
    behaviour they have there: the fixed-width integer types, `char.IsWhiteSpace`,
    `string.IsNullOrWhiteSpace` and the custom numeric format "000000". */
module DotNet {
  import opened Wrappers

  const Int32Max: int := 0x7FFF_FFFF
  const Int64Max: int := 0x7FFF_FFFF_FFFF_FFFF

  /** C# `int` */
  type int32 = x: int | -0x8000_0000 <= x <= 0x7FFF_FFFF
  /** C# `long` */
  type int64 = x: int | -0x8000_0000_0000_0000 <= x <= 0x7FFF_FFFF_FFFF_FFFF

  /** `char.IsWhiteSpace`: the controls U+0009..U+000D and U+0085, and the
      members of the Unicode categories Zs, Zl and Zp. */
  predicate IsWhiteSpace(c: char)
  {
    || ('\t' <= c <= '\r')
    || c == ' ' || c == '\U{85}' || c == '\U{A0}' || c == '\U{1680}'
    || ('\U{2000}' <= c <= '\U{200A}')
    || c == '\U{2028}' || c == '\U{2029}' || c == '\U{202F}' || c == '\U{205F}' || c == '\U{3000}'
  }

  /** `string.IsNullOrWhiteSpace`; a string that may be null is an `Option<string>`. */
  predicate IsNullOrWhiteSpace(s: Option<string>)
  {
    s.None? || forall i | 0 <= i < |s.value| :: IsWhiteSpace(s.value[i])
  }

  predicate IsDigit(c: char)
  {
    '0' <= c <= '9'
  }

  predicate AllDigits(s: string)
  {
    forall i | 0 <= i < |s| :: IsDigit(s[i])
  }

  function DigitChar(d: nat): (c: char)
    requires d < 10
    ensures IsDigit(c) && DigitValue(c) == d
  {
    "0123456789"[d]
  }

  function DigitValue(c: char): (d: nat)
    requires IsDigit(c)
    ensures d < 10
  {
    c as int - '0' as int
  }

  function Pow10(k: nat): (p: nat)
    ensures p >= 1
  {
    if k == 0 then 1 else 10 * Pow10(k - 1)
  }

  /** The shortest decimal representation of `n` (format "0"). */
  function Decimal(n: nat): (s: string)
    ensures |s| >= 1 && AllDigits(s)
    decreases n
  {
    if n < 10 then [DigitChar(n)] else Decimal(n / 10) + [DigitChar(n % 10)]
  }

  /** Reads a string of decimal digits back as a number, leading zeros allowed. */
  function ParseDecimal(s: string): nat
    requires AllDigits(s)
  {
    if s == [] then 0 else ParseDecimal(s[..|s| - 1]) * 10 + DigitValue(s[|s| - 1])
  }

  function Zeros(k: nat): (s: string)
    ensures |s| == k && AllDigits(s)
  {
    seq(k, _ => '0')
  }

  /** The custom numeric format "000000" applied to a non-negative number:
      its decimal digits, left-padded with zeros to at least six. */
  function FormatZeroPadded6(n: nat): string
  {
    var d := Decimal(n);
    if |d| < 6 then Zeros(6 - |d|) + d else d
  }

  /** "000000" writes digits only, exactly six of them below one million,
      and reads back as the number. */
  lemma ZeroPaddedRoundTrip(n: nat)
    ensures var s := FormatZeroPadded6(n);
            && AllDigits(s) && |s| >= 6
            && (n < 1_000_000 <==> |s| == 6)
            && ParseDecimal(s) == n
  {
    var d, s := Decimal(n), FormatZeroPadded6(n);
    DecimalRoundTrip(n);
    if |d| < 6 {
      assert s == Zeros(6 - |d|) + d;
      LeadingZerosIgnored(6 - |d|, d);
    } else {
      assert s == d;
    }
    DecimalWidth(n, 6);
    assert Pow10(6) == 1_000_000;
  }

  /** Parsing undoes `Decimal`. */
  lemma {:induction false} DecimalRoundTrip(n: nat)
    ensures ParseDecimal(Decimal(n)) == n
    decreases n
  {
    var s := Decimal(n);
    if n >= 10 {
      assert s[..|s| - 1] == Decimal(n / 10);
      DecimalRoundTrip(n / 10);
    }
  }

  /** `Decimal(n)` has at most `k` digits exactly when `n < 10^k`. */
  lemma {:induction false} DecimalWidth(n: nat, k: nat)
    requires k >= 1
    ensures |Decimal(n)| <= k <==> n < Pow10(k)
    decreases n
  {
    if n >= 10 {
      if k == 1 {
        assert Pow10(1) == 10;
      } else {
        DecimalWidth(n / 10, k - 1);
      }
    }
  }

  /** Leading zeros do not change the parsed value. */
  lemma {:induction false} LeadingZerosIgnored(k: nat, s: string)
    requires AllDigits(s)
    ensures ParseDecimal(Zeros(k) + s) == ParseDecimal(s)
    decreases |s|
  {
    var t := Zeros(k) + s;
    if s == [] {
      assert t == Zeros(k);
      AllZerosParseToZero(k);
    } else {
      assert t[..|t| - 1] == Zeros(k) + s[..|s| - 1];
      LeadingZerosIgnored(k, s[..|s| - 1]);
    }
  }

  lemma {:induction false} AllZerosParseToZero(k: nat)
    ensures ParseDecimal(Zeros(k)) == 0
  {
    if k > 0 {
      assert Zeros(k)[..k - 1] == Zeros(k - 1);
      AllZerosParseToZero(k - 1);
    }
  }
}

=== FILE: options.dfy ===
/** The parsed command line (CommandLineOptions.cs) and the checks `Main`
    applies to it before anything is split. */
module CommandLine {
  import opened Wrappers
  import opened DotNet

  /** One field per field of `CommandLineOptions`; a string the parser may
      leave null is an `Option<string>`. */
  datatype CommandLineOptions = CommandLineOptions(
    filePattern: Option<string>,
    recurseSubfolders: bool,
    numHeaderRows: int32,
    repeatHeaderRows: bool,
    outputFolder: Option<string>,
    outputFilenameBase: Option<string>,
    overwriteOutputFiles: bool,
    compress: bool,
    maxLinesPerFile: int64,
    maxFileSizeMB: int32)

  /** The object `Main` creates before parsing: one header row, header rows
      repeated, no compression, every other field at its C# default. */
  function InitialOptions(): CommandLineOptions
  {
    CommandLineOptions(
      filePattern := None, recurseSubfolders := false, numHeaderRows := 1,
      repeatHeaderRows := true, outputFolder := None, outputFilenameBase := None,
      overwriteOutputFiles := false, compress := false, maxLinesPerFile := 0,
      maxFileSizeMB := 0)
  }

  /** The exceptions `Main` throws for a missing required option. */
  datatype ConfigError = MissingInputFilePattern | MissingOutputFolder | MissingMaxLinesPerFile

  /** The three checks of `Main`, in order; the first that fails names the error. */
  function Validate(o: CommandLineOptions): (r: Result<CommandLineOptions, ConfigError>)
    ensures r.Ok? <==>
              !IsNullOrWhiteSpace(o.filePattern) && !IsNullOrWhiteSpace(o.outputFolder)
              && o.maxLinesPerFile != 0
    ensures r.Ok? ==> r.value == o && o.filePattern.Some? && o.outputFolder.Some?
    ensures r == Err(MissingInputFilePattern) <==> IsNullOrWhiteSpace(o.filePattern)
    ensures r == Err(MissingOutputFolder) <==>
              !IsNullOrWhiteSpace(o.filePattern) && IsNullOrWhiteSpace(o.outputFolder)
  {
    if IsNullOrWhiteSpace(o.filePattern) then Err(MissingInputFilePattern)
    else if IsNullOrWhiteSpace(o.outputFolder) then Err(MissingOutputFolder)
    else if o.maxLinesPerFile == 0 then Err(MissingMaxLinesPerFile)
    else Ok(o)
  }

  /** Without `-i` nothing else is even looked at. */
  lemma InitialOptionsNeedInputPattern()
    ensures Validate(InitialOptions()) == Err(MissingInputFilePattern)
  {
  }

  /** Only zero is refused as a line limit: a negative limit passes validation. */
  lemma NegativeLimitAccepted(o: CommandLineOptions)
    requires !IsNullOrWhiteSpace(o.filePattern) && !IsNullOrWhiteSpace(o.outputFolder)
    requires o.maxLinesPerFile < 0
    ensures Validate(o).Ok?
  {
  }
}

=== FILE: paths.dfy ===
/** The `System.IO.Path` helpers the splitter calls, as .NET Framework defines
    them on Windows: `\` is the directory separator, `/` the alternative one
    and `:` the volume separator. Invalid-character checks are not modelled. */
module Paths {

  const DirectorySeparatorChar: char := '\\'

  predicate IsDirectorySeparator(c: char)
  {
    c == '\\' || c == '/'
  }

  /** The characters at which `GetFileName` and `GetExtension` stop scanning backwards. */
  predicate EndsDirectoryPart(c: char)
  {
    IsDirectorySeparator(c) || c == ':'
  }

  /** `Path.GetFileName`: the part of `path` after the last separator. */
  function GetFileName(path: string): string
  {
    if path == [] then []
    else if EndsDirectoryPart(path[|path| - 1]) then []
    else GetFileName(path[..|path| - 1]) + [path[|path| - 1]]
  }

  /** The file name is the longest suffix of `path` without a separator: it
      ends `path`, holds no separator, and what precedes it is one. */
  lemma {:induction false} FileNameIsLastPart(path: string)
    ensures var name := GetFileName(path);
            && |name| <= |path| && path[|path| - |name|..] == name
            && (forall i | 0 <= i < |name| :: !EndsDirectoryPart(name[i]))
            && (|name| < |path| ==> EndsDirectoryPart(path[|path| - |name| - 1]))
  {
    if path != [] && !EndsDirectoryPart(path[|path| - 1]) {
      var init, last := path[..|path| - 1], path[|path| - 1];
      assert path == init + [last];
      FileNameIsLastPart(init);
      var stem := GetFileName(init);
      var name := stem + [last];
      assert GetFileName(path) == name;
      assert path[|path| - |name|..] == init[|init| - |stem|..] + [last];
      forall i | 0 <= i < |name|
        ensures !EndsDirectoryPart(name[i])
      {
        if i < |stem| {
          assert name[i] == stem[i];
        }
      }
      if |name| < |path| {
        assert path[|path| - |name| - 1] == init[|init| - |stem| - 1];
      }
    }
  }

  /** `String.LastIndexOf(c)`: -1 when `c` does not occur. */
  function LastIndexOf(s: string, c: char): (k: int)
    ensures -1 <= k < |s|
  {
    if s == [] then -1
    else if s[|s| - 1] == c then |s| - 1
    else LastIndexOf(s[..|s| - 1], c)
  }

  /** `LastIndexOf` finds `c` and no later occurrence, or -1 when there is none. */
  lemma {:induction false} LastIndexOfIsLast(s: string, c: char)
    ensures var k := LastIndexOf(s, c);
            && (k >= 0 ==> s[k] == c)
            && (forall j | k < j < |s| :: s[j] != c)
  {
    if s != [] && s[|s| - 1] != c {
      LastIndexOfIsLast(s[..|s| - 1], c);
    }
  }

  /** `Path.GetExtension`: from the last '.' of the file name, or empty when
      there is none or it is the last character. */
  function GetExtension(path: string): string
  {
    var name := GetFileName(path);
    var dot := LastIndexOf(name, '.');
    if dot < 0 || dot == |name| - 1 then "" else name[dot..]
  }

  /** `Path.GetFileNameWithoutExtension`: the file name up to its last '.'. */
  function GetFileNameWithoutExtension(path: string): string
  {
    var name := GetFileName(path);
    var dot := LastIndexOf(name, '.');
    if dot < 0 then name else name[..dot]
  }

  /** `Path.IsPathRooted`. */
  predicate IsPathRooted(path: string)
  {
    (|path| >= 1 && IsDirectorySeparator(path[0])) || (|path| >= 2 && path[1] == ':')
  }

  /** `Path.Combine(path1, path2)` for two non-null arguments. */
  function Combine(path1: string, path2: string): string
  {
    if path2 == [] then path1
    else if path1 == [] then path2
    else if IsPathRooted(path2) then path2
    else if EndsDirectoryPart(path1[|path1| - 1]) then path1 + path2
    else path1 + [DirectorySeparatorChar] + path2
  }

  /** The combined path ends with `path2`; a rooted `path2` replaces
      `path1`; otherwise the result starts with `path1`, and when both are
      non-empty a separator (or volume separator) stands between them, with
      at most one character inserted. */
  lemma CombineShape(path1: string, path2: string)
    ensures var r := Combine(path1, path2);
            && (path2 == [] ==> r == path1)
            && (path2 != [] && IsPathRooted(path2) ==> r == path2)
            && |path2| <= |r| && r[|r| - |path2|..] == path2
            && (!IsPathRooted(path2) ==> |path1| <= |r| && r[..|path1|] == path1)
            && (path1 != [] && path2 != [] && !IsPathRooted(path2) ==>
                  && |path1| + |path2| <= |r| <= |path1| + 1 + |path2|
                  && EndsDirectoryPart(r[|r| - |path2| - 1]))
  {
  }

  /** The file name splits into the name without extension and the extension;
      a name ending in '.' loses that '.' and has no extension. */
  lemma FileNameSplitsAtExtension(path: string)
    ensures var name, stem, ext := GetFileName(path), GetFileNameWithoutExtension(path), GetExtension(path);
            name == stem + ext || (ext == "" && name == stem + ".")
  {
    var name := GetFileName(path);
    var dot := LastIndexOf(name, '.');
    if 0 <= dot < |name| - 1 {
      assert name == name[..dot] + name[dot..];
    } else if dot >= 0 {
      LastIndexOfIsLast(name, '.');
      assert name == name[..dot] + ".";
    }
  }

  /** An extension is empty, or a '.' followed by at least one character and
      no further '.'. */
  lemma ExtensionShape(path: string)
    ensures var ext := GetExtension(path);
            ext == "" || (|ext| >= 2 && ext[0] == '.' && '.' !in ext[1..])
  {
    var name := GetFileName(path);
    var dot := LastIndexOf(name, '.');
    LastIndexOfIsLast(name, '.');
    if 0 <= dot < |name| - 1 {
      var ext := name[dot..];
      assert forall j | 1 <= j < |ext| :: ext[j] == name[dot + j];
    }
  }

  /** A file name without '.' is its own name without extension. */
  lemma NoDotKeepsName(path: string)
    requires '.' !in GetFileName(path)
    ensures GetFileNameWithoutExtension(path) == GetFileName(path) && GetExtension(path) == ""
  {
    LastIndexOfIsLast(GetFileName(path), '.');
  }
}

=== FILE: sequences.dfy ===
/** General facts about sequences that the chunking reference and the
    read loop both lean on. */
module Sequences {

  /** The final element of a non-empty sequence. */
  function Last<T>(s: seq<T>): T
    requires |s| > 0
  {
    s[|s| - 1]
  }

  /** A slice grows by the element at its end. */
  lemma SliceSnoc<T>(s: seq<T>, i: nat, j: nat)
    requires i <= j < |s|
    ensures s[i..j + 1] == s[i..j] + [s[j]]
  {
  }
}

=== FILE: session.dfy ===
/** The splitter as Program.cs runs it: a reader handing out the input's
    lines, writers collecting the lines of each output file, and the split
    session holding `lineCounter`, `fileCounter` and the current writer that
    `SplitFile` threads through `GetOutputFile` by reference. Each method is
    proved against the specification in module `FileSplitter`. */
module Session {
  import opened Wrappers
  import opened DotNet
  import opened CommandLine
  import opened Sequences
  import opened Chunking
  import opened FileSplitter

  /** A `StreamReader` over an input whose lines are given. */
  class LineReader {
    const lines: seq<string>
    var position: nat

    ghost predicate Valid()
      reads this
    {
      position <= |lines|
    }

    constructor (lines: seq<string>)
      ensures Valid() && this.lines == lines && position == 0
    {
      this.lines := lines;
      position := 0;
    }

    /** `ReadLine`: the next line, or null at end of input. */
    method ReadLine() returns (line: Option<string>)
      requires Valid()
      modifies this`position
      ensures Valid()
      ensures old(position) < |lines| ==> line == Some(lines[old(position)]) && position == old(position) + 1
      ensures old(position) == |lines| ==> line == None && position == old(position)
    {
      if position < |lines| {
        line := Some(lines[position]);
        position := position + 1;
      } else {
        line := None;
      }
    }
  }

  /** A `StreamWriter` on an output file; the lines it has been given are its
      contents (flushing is not modelled). */
  class OutputWriter {
    const path: string
    var lines: seq<string>
    var isOpen: bool

    constructor (path: string)
      ensures this.path == path && lines == [] && isOpen
    {
      this.path := path;
      lines := [];
      isOpen := true;
    }

    method WriteLine(line: string)
      requires isOpen
      modifies this`lines
      ensures lines == old(lines) + [line]
    {
      lines := lines + [line];
    }

    method Close()
      modifies this`isOpen
      ensures !isOpen
    {
      isOpen := false;
    }

    function Contents(): OutputFile
      reads this
    {
      OutputFile(path, lines)
    }
  }

  /** Writer i is the writer of file i: it was opened on that file's name. */
  predicate NamedAfter(writers: seq<OutputWriter>, files: seq<OutputFile>)
  {
    |writers| == |files| && forall i | 0 <= i < |writers| :: writers[i].path == files[i].name
  }

  /** `ReadHeaderRows`: reads `numHeaderRows` lines (none when it is not
      positive; end of input reads as null) and keeps those that are not
      blank. */
  method ReadHeaderRows(reader: LineReader, numHeaderRows: int32) returns (headerRows: seq<string>)
    requires reader.Valid()
    modifies reader`position
    ensures reader.Valid()
    ensures reader.position == old(reader.position) + HeaderSpan(numHeaderRows, |reader.lines| - old(reader.position))
    ensures headerRows == NonBlank(reader.lines[old(reader.position)..reader.position])
  {
    ghost var start, available := reader.position, |reader.lines| - reader.position;
    ghost var consumed: seq<string> := [];
    headerRows := [];
    var i := 0;
    while i < numHeaderRows
      invariant 0 <= i && (numHeaderRows >= 0 ==> i <= numHeaderRows) && (numHeaderRows < 0 ==> i == 0)
      invariant reader.Valid()
      invariant reader.position == start + HeaderSpan(i, available)
      invariant consumed == reader.lines[start..reader.position]
      invariant headerRows == NonBlank(consumed)
    {
      ghost var before := reader.position;
      var line := reader.ReadLine();
      if line.Some? {
        SliceSnoc(reader.lines, start, before);
        NonBlankSnoc(consumed, line.value);
        consumed := consumed + [line.value];
        assert consumed == reader.lines[start..before + 1];
      }
      if !IsNullOrWhiteSpace(line) {
        headerRows := headerRows + [line.value];
      }
      i := i + 1;
    }
    assert HeaderSpan(i, available) == HeaderSpan(numHeaderRows, available);
  }

  /** `WriteHeaderRows`: writes the header block, in order. */
  method WriteHeaderRows(writer: OutputWriter, headerRows: seq<string>)
    requires writer.isOpen
    modifies writer`lines
    ensures writer.lines == old(writer.lines) + headerRows
  {
    for i := 0 to |headerRows|
      invariant writer.lines == old(writer.lines) + headerRows[..i]
    {
      writer.WriteLine(headerRows[i]);
      assert headerRows[..i + 1] == headerRows[..i] + [headerRows[i]];
    }
  }

  /** The state `SplitFile` keeps for one input file. */
  class SplitSession {
    const naming: Naming
    const repeatHeaderRows: bool
    const maxLinesPerFile: int64
    const headerRows: seq<string>

    var writer: OutputWriter?
    /** The output files closed so far. */
    var closedFiles: seq<OutputFile>
    /** The writers of those files, in the same order. */
    ghost var retired: seq<OutputWriter>
    var lineCounter: int64
    var fileCounter: nat

    /** The current writer is open and has not been retired; there is one
        retired writer per closed file. */
    ghost predicate Valid()
      reads this, writer
    {
      && (writer != null ==> writer.isOpen && writer !in retired)
      && |retired| == |closedFiles|
    }

    ghost function Plan(): SplitPlan
    {
      SplitPlan(naming, repeatHeaderRows, headerRows, maxLinesPerFile)
    }

    /** The session as values; the open writer's contents are the open file. */
    ghost function State(): SessionState
      reads this, writer
    {
      SessionState(closedFiles, if writer == null then None else Some(writer.Contents()), lineCounter, fileCounter)
    }

    constructor (naming: Naming, repeatHeaderRows: bool, maxLinesPerFile: int64, headerRows: seq<string>)
      ensures Valid() && State() == InitialState
      ensures Plan() == SplitPlan(naming, repeatHeaderRows, headerRows, maxLinesPerFile)
    {
      this.naming := naming;
      this.repeatHeaderRows := repeatHeaderRows;
      this.maxLinesPerFile := maxLinesPerFile;
      this.headerRows := headerRows;
      writer := null;
      closedFiles := [];
      retired := [];
      lineCounter := LineCounterSentinel;
      fileCounter := 0;
    }

    /** `GetOutputFile`: counts the coming line and, when a rotation is due,
        closes the current file and opens the next one, writing the header
        block into it when `RepeatHeaderRows` is set or it is file 1. */
    method GetOutputFile()
      requires Valid() && lineCounter < Int64Max && NamedAfter(retired, closedFiles)
      requires forall w | w in retired :: !w.isOpen
      modifies this, writer
      ensures Valid() && NamedAfter(retired, closedFiles)
      ensures forall w | w in retired :: !w.isOpen
      ensures writer == old(writer) || fresh(writer)
      ensures old(writer) != null || old(lineCounter) + 1 > maxLinesPerFile ==> writer != null
      ensures writer == old(writer) ==> retired == old(retired)
      ensures writer != old(writer) && old(writer) != null ==> retired == old(retired) + [old(writer)] && !old(writer).isOpen
      ensures writer != old(writer) && old(writer) == null ==> retired == old(retired)
      ensures State() == CountLine(Plan(), old(State()))
    {
      ghost var before := State();
      lineCounter := lineCounter + 1;
      if lineCounter > maxLinesPerFile {
        OpenNextFile();
      } else {
        assert State() == before.(lineCounter := lineCounter);
      }
    }

    /** The rotation of `GetOutputFile` (lines 163-177): the open file, if
        any, is closed and recorded with its writer; file `fileCounter + 1`
        is opened, holding the header block when `RepeatHeaderRows` is set or
        it is file 1, and the counter restarts at 1. */
    method OpenNextFile()
      requires Valid() && NamedAfter(retired, closedFiles)
      requires forall w | w in retired :: !w.isOpen
      modifies this, writer
      ensures Valid() && NamedAfter(retired, closedFiles)
      ensures forall w | w in retired :: !w.isOpen
      ensures writer != null && fresh(writer)
      ensures old(writer) != null ==> retired == old(retired) + [old(writer)] && !old(writer).isOpen
      ensures old(writer) == null ==> retired == old(retired)
      ensures var n := old(fileCounter) + 1;
              State() == SessionState(Files(old(State())), Some(OutputFile(naming.FileName(n), FileHeader(repeatHeaderRows, n, headerRows))), 1, n)
    {
      ghost var before := State();
      if writer != null {
        writer.Close();
        closedFiles := closedFiles + [writer.Contents()];
        retired := retired + [writer];
      }
      assert closedFiles == Files(before);
      fileCounter := fileCounter + 1;
      lineCounter := 1;
      writer := new OutputWriter(naming.FileName(fileCounter));
      if repeatHeaderRows || fileCounter == 1 {
        WriteHeaderRows(writer, headerRows);
        assert writer.lines == headerRows;
      }
      assert writer.Contents() == OutputFile(naming.FileName(fileCounter), FileHeader(repeatHeaderRows, fileCounter, headerRows));
    }
  }

  /** `SplitFile`: splits one input file, given its path and its lines, into
      numbered output files, and returns them in order; fails as the source
      does when no output file was opened. `writers` are the writers it
      opened, writer i opened on the name of output file i, and all of them
      are closed on return. The limit is one `-m` can set: line 23 parses it
      as an `int`. */
  method SplitFile(options: CommandLineOptions, inputFile: string, lines: seq<string>)
    returns (r: Result<seq<OutputFile>, SplitError>, ghost writers: seq<OutputWriter>)
    requires options.filePattern.Some? && options.outputFolder.Some?
    requires options.maxLinesPerFile <= Int32Max
    ensures r == SplitOutcome(options, inputFile, lines)
    ensures forall w | w in writers :: !w.isOpen
    ensures r.Ok? ==> NamedAfter(writers, r.value)
    ensures r.Err? ==> writers == []
  {
    var naming := NamingFor(options, inputFile);
    var reader := new LineReader(lines);
    var headerRows := ReadHeaderRows(reader, options.numHeaderRows);
    var session := new SplitSession(naming, options.repeatHeaderRows, options.maxLinesPerFile, headerRows);
    ghost var span := reader.position;
    assert span == HeaderSpan(options.numHeaderRows, |lines|);
    assert lines[0..span] == lines[..span];
    assert session.Plan() == SplitPlan(naming, options.repeatHeaderRows, HeaderRows(lines, options.numHeaderRows), options.maxLinesPerFile);
    WriteDataLines(reader, session);
    assert session.State() == Replay(session.Plan(), lines[HeaderSpan(options.numHeaderRows, |lines|)..]);
    ReplayMatchesOutcome(options, inputFile, lines);

    r, writers := FinishFile(session);
  }

  /** The end of `SplitFile` (lines 128-129): the open writer is closed and
      the files are the closed ones followed by its contents. With no open
      writer the source dereferences null, which is the failure. */
  method FinishFile(session: SplitSession) returns (r: Result<seq<OutputFile>, SplitError>, ghost writers: seq<OutputWriter>)
    requires session.Valid() && (forall w | w in session.retired :: !w.isOpen)
    requires NamedAfter(session.retired, session.closedFiles)
    modifies session.writer
    ensures var st := old(session.State());
            r == if st.current.None? then Err(NoOutputFileOpened) else Ok(Files(st))
    ensures forall w | w in writers :: !w.isOpen
    ensures r.Ok? ==> NamedAfter(writers, r.value)
    ensures r.Err? ==> writers == session.retired
  {
    writers := session.retired;
    if session.writer == null {
      r := Err(NoOutputFileOpened);
    } else {
      var last: OutputWriter := session.writer;
      assert last !in writers;
      last.Close();
      r := Ok(session.closedFiles + [last.Contents()]);
      writers := writers + [last];
    }
  }

  /** The loop of `SplitFile` (lines 119-126): every remaining line is
      counted by `GetOutputFile` and then written to the writer it returns,
      so the session ends in the replay of those lines. */
  method WriteDataLines(reader: LineReader, session: SplitSession)
    requires reader.Valid() && session.maxLinesPerFile <= Int32Max
    requires session.Valid() && session.State() == InitialState
    modifies reader`position, session
    ensures reader.position == |reader.lines|
    ensures session.writer != null ==> fresh(session.writer)
    ensures Copied(session, reader.lines[old(reader.position)..])
  {
    var span := reader.position;
    var more := true;
    while more
      invariant reader.Valid() && span <= reader.position
      invariant !more ==> reader.position == |reader.lines|
      invariant session.writer != null ==> fresh(session.writer)
      invariant Copied(session, reader.lines[span..reader.position])
      decreases |reader.lines| - reader.position, more
    {
      more := CopyNextLine(reader, session, span);
    }
    assert reader.lines[span..reader.position] == reader.lines[span..];
  }

  /** One test of the loop's condition and, when it holds, one turn of its
      body (lines 122-125): the next line is read and, unless the input is
      exhausted, copied. */
  method CopyNextLine(reader: LineReader, session: SplitSession, ghost span: nat) returns (copied: bool)
    requires reader.Valid() && span <= reader.position
    requires Copied(session, reader.lines[span..reader.position])
    modifies reader`position, session, session.writer
    ensures reader.Valid()
    ensures copied ==> reader.position == old(reader.position) + 1
    ensures !copied ==> reader.position == old(reader.position) == |reader.lines|
    ensures session.writer == old(session.writer) || fresh(session.writer)
    ensures Copied(session, reader.lines[span..reader.position])
  {
    ghost var before, seen := reader.position, reader.lines[span..reader.position];
    var line := reader.ReadLine();
    if line.None? {
      return false;
    }
    SliceSnoc(reader.lines, span, before);
    assert reader.lines[span..reader.position] == seen + [line.value];
    CopyLine(session, seen, line.value);
    copied := true;
  }

  /** The invariant of that loop: the session is valid, every writer it
      replaced is closed and was opened on its file's name, and its state is
      the replay of the lines copied so far. */
  ghost predicate Copied(session: SplitSession, seen: seq<string>)
    reads session, session.writer, session.retired
  {
    && session.maxLinesPerFile <= Int32Max
    && session.Valid() && (forall w | w in session.retired :: !w.isOpen)
    && NamedAfter(session.retired, session.closedFiles)
    && session.State() == Replay(session.Plan(), seen)
  }

  /** One turn of that loop (lines 124-125): `GetOutputFile`, then the line
      goes to the writer it returns. */
  method CopyLine(session: SplitSession, ghost seen: seq<string>, line: string)
    requires Copied(session, seen)
    modifies session, session.writer
    ensures session.writer == old(session.writer) || fresh(session.writer)
    ensures Copied(session, seen + [line])
  {
    ReplaySnoc(session.Plan(), seen, line);
    session.GetOutputFile();
    ghost var counted := session.State();
    session.writer.WriteLine(line);
    assert session.State() == Emit(counted, line);
  }
}

=== FILE: splitter.dfy ===
/** What splitting one input file produces (Program.cs `SplitFile` with
    `ReadHeaderRows`, `GetOutputFile`, `WriteHeaderRows` and
    `GetOutputFilename`), as a function of the options, the input file's path
    and its lines, together with the properties that outcome has. The
    imperative session in module `Session` is proved to compute it. */
module FileSplitter {
  import opened Wrappers
  import opened DotNet
  import Paths
  import opened CommandLine
  import opened Sequences
  import opened Chunking
  import Discovery

  /** The initial `lineCounter`: one below long.MaxValue, so that its first
      increment cannot overflow and normally exceeds the limit. */
  const LineCounterSentinel: int64 := 0x7FFF_FFFF_FFFF_FFFE

  /** A closed output file: its path and the lines written to it. */
  datatype OutputFile = OutputFile(name: string, lines: seq<string>)

  /** The NullReferenceException `SplitFile` raises at its final flush when
      no output file was ever opened. */
  datatype SplitError = NoOutputFileOpened

  // ---------------------------------------------------------------- naming

  /** `GetOutputFilename`: `Path.Combine(folder, base)`, '_', the file number
      in format "000000", the extension. */
  function GetOutputFilename(folder: string, filenameBase: string, fileNumber: nat, extension: string): string
  {
    Paths.Combine(folder, filenameBase) + "_" + FormatZeroPadded6(fileNumber) + extension
  }

  /** An output name starts with the combined folder and base and a '_', and
      ends with the extension, with only digits between; for numbers below one million the six
      characters before the extension are the number's digits, which read
      back as the number. */
  lemma OutputFilenameShape(folder: string, filenameBase: string, fileNumber: nat, extension: string)
    ensures var name, stem := GetOutputFilename(folder, filenameBase, fileNumber, extension), Paths.Combine(folder, filenameBase);
            && |name| >= |stem| + 7 + |extension|
            && name[..|stem|] == stem && name[|stem|] == '_'
            && AllDigits(name[|stem| + 1..|name| - |extension|])
            && name[|name| - |extension|..] == extension
            && (fileNumber < 1_000_000 ==>
                  var digits := name[|name| - |extension| - 6..|name| - |extension|];
                  && name[|name| - |extension| - 7] == '_'
                  && AllDigits(digits) && ParseDecimal(digits) == fileNumber)
  {
    var stem := Paths.Combine(folder, filenameBase);
    var number := FormatZeroPadded6(fileNumber);
    ZeroPaddedRoundTrip(fileNumber);
    var name := stem + "_" + number + extension;
    assert name[|stem| + 1..|stem| + 1 + |number|] == number;
  }

  /** Different file numbers give different output names. */
  lemma {:induction false} OutputFilenamesDistinct(folder: string, filenameBase: string, extension: string, m: nat, n: nat)
    requires m != n
    ensures GetOutputFilename(folder, filenameBase, m, extension) != GetOutputFilename(folder, filenameBase, n, extension)
  {
    var prefix := Paths.Combine(folder, filenameBase) + "_";
    var dm, dn := FormatZeroPadded6(m), FormatZeroPadded6(n);
    ZeroPaddedRoundTrip(m);
    ZeroPaddedRoundTrip(n);
    var a, b := prefix + dm + extension, prefix + dn + extension;
    assert a[|prefix|..|prefix| + |dm|] == dm;
    assert b[|prefix|..|prefix| + |dn|] == dn;
  }

  /** Where the numbered outputs of one input file go. */
  datatype Naming = Naming(folder: string, filenameBase: string, extension: string)
  {
    function FileName(fileNumber: nat): string
    {
      GetOutputFilename(folder, filenameBase, fileNumber, extension)
    }

    lemma FileNamesDistinct(m: nat, n: nat)
      requires m != n
      ensures FileName(m) != FileName(n)
    {
      OutputFilenamesDistinct(folder, filenameBase, extension, m, n);
    }
  }

  /** Lines 113-114: the configured base, unless it is blank or the pattern
      holds a '*'; then the input file's name without its extension. */
  function OutputFilenameBase(o: CommandLineOptions, inputFile: string): string
    requires IsNullOrWhiteSpace(o.outputFilenameBase) || o.filePattern.Some?
  {
    if IsNullOrWhiteSpace(o.outputFilenameBase) || '*' in o.filePattern.value then
      Paths.GetFileNameWithoutExtension(inputFile)
    else
      o.outputFilenameBase.value
  }

  /** Lines 113-115 and the folder: everything `GetOutputFilename` needs
      besides the file number. */
  function NamingFor(o: CommandLineOptions, inputFile: string): Naming
    requires o.filePattern.Some? && o.outputFolder.Some?
  {
    Naming(o.outputFolder.value, OutputFilenameBase(o, inputFile), Paths.GetExtension(inputFile))
  }

  /** Without a usable configured base, file number n of "dir\data.csv" is
      "<folder>\data_<n as 000000>.csv": the input's own file name with the
      number inserted before its extension. */
  lemma {:induction false} DerivedNameKeepsInputName(o: CommandLineOptions, inputFile: string, fileNumber: nat)
    requires o.filePattern.Some? && o.outputFolder.Some?
    requires IsNullOrWhiteSpace(o.outputFilenameBase) || '*' in o.filePattern.value
    requires var name := Paths.GetFileName(inputFile); name != [] && name[|name| - 1] != '.'
    ensures var stem, ext := Paths.GetFileNameWithoutExtension(inputFile), Paths.GetExtension(inputFile);
            && stem + ext == Paths.GetFileName(inputFile)
            && NamingFor(o, inputFile).FileName(fileNumber) ==
                 Paths.Combine(o.outputFolder.value, stem) + "_" + FormatZeroPadded6(fileNumber) + ext
  {
    Paths.FileNameSplitsAtExtension(inputFile);
  }

  /** An input file whose name is all extension, such as `.csv`, derives an
      empty base. `Path.Combine` then returns the folder itself, so line 185
      names every output file after the folder: it lands beside the output
      folder, not inside it. */
  lemma ExtensionOnlyNameLandsBesideFolder(o: CommandLineOptions, inputFile: string, fileNumber: nat)
    requires o.filePattern.Some? && o.outputFolder.Some?
    requires IsNullOrWhiteSpace(o.outputFilenameBase) || '*' in o.filePattern.value
    requires Paths.GetFileName(inputFile) == Paths.GetExtension(inputFile)
    ensures NamingFor(o, inputFile).filenameBase == []
    ensures NamingFor(o, inputFile).FileName(fileNumber) ==
              o.outputFolder.value + "_" + FormatZeroPadded6(fileNumber) + Paths.GetExtension(inputFile)
  {
  }

  /** The input `in\.csv`, for instance, is split into `<folder>_000001.csv`,
      `<folder>_000002.csv` and so on. */
  lemma ExtensionOnlyNameExample(o: CommandLineOptions, fileNumber: nat)
    requires o.filePattern.Some? && o.outputFolder.Some?
    requires IsNullOrWhiteSpace(o.outputFilenameBase) || '*' in o.filePattern.value
    ensures NamingFor(o, "in\\.csv").FileName(fileNumber) == o.outputFolder.value + "_" + FormatZeroPadded6(fileNumber) + ".csv"
  {
    var inputFile := "in\\.csv";
    assert Paths.GetFileName(inputFile) == ".csv" by {
      assert Paths.GetFileName("in\\") == [];
      assert Paths.GetFileName("in\\.") == "." by { assert "in\\."[..3] == "in\\"; }
      assert Paths.GetFileName("in\\.c") == ".c" by { assert "in\\.c"[..4] == "in\\."; }
      assert Paths.GetFileName("in\\.cs") == ".cs" by { assert "in\\.cs"[..5] == "in\\.c"; }
      assert inputFile[..6] == "in\\.cs";
    }
    assert Paths.LastIndexOf(".csv", '.') == 0 by {
      assert ".csv"[..3] == ".cs";
      assert ".cs"[..2] == ".c";
      assert ".c"[..1] == ".";
    }
    ExtensionOnlyNameLandsBesideFolder(o, inputFile, fileNumber);
  }

  /** A configured, non-blank base is used as given when the pattern names a
      single file. */
  lemma ConfiguredBaseUsed(o: CommandLineOptions, inputFile: string)
    requires o.filePattern.Some? && o.outputFolder.Some?
    requires !IsNullOrWhiteSpace(o.outputFilenameBase) && '*' !in o.filePattern.value
    ensures NamingFor(o, inputFile).filenameBase == o.outputFilenameBase.value
  {
  }

  /** A '*' in the directory part alone: the pattern is taken as the one
      file it names (line 79), yet line 113 looks at the whole pattern, so a
      configured base is ignored and the input's own name is used. Under the
      Windows path rules assumed here '*' cannot occur in a directory name,
      so opening that file (line 118) fails there; the quirk shows only where
      a directory name may hold a '*'. */
  lemma StarInDirectoryIgnoresConfiguredBase(o: CommandLineOptions, inputFile: string, enumerated: seq<string>)
    requires o.filePattern.Some? && o.outputFolder.Some?
    requires '*' in o.filePattern.value && '*' !in Paths.GetFileName(o.filePattern.value)
    ensures Discovery.InputFiles(Discovery.InputFileQuery(o.filePattern.value, o.recurseSubfolders), enumerated) == [o.filePattern.value]
    ensures NamingFor(o, inputFile).filenameBase == Paths.GetFileNameWithoutExtension(inputFile)
  {
    Discovery.LiteralPatternIsSingleFile(o.filePattern.value, o.recurseSubfolders, enumerated);
  }

  // ---------------------------------------------------------------- header

  predicate IsBlank(row: string)
  {
    IsNullOrWhiteSpace(Some(row))
  }

  /** The rows that are not blank, in their order. */
  function NonBlank(rows: seq<string>): (kept: seq<string>)
    ensures |kept| <= |rows|
  {
    if rows == [] then []
    else NonBlank(rows[..|rows| - 1]) + if IsBlank(Last(rows)) then [] else [Last(rows)]
  }

  /** `NonBlank` keeps exactly the rows that are not blank, and drops nothing
      when no row is blank. */
  lemma {:induction false} NonBlankFilters(rows: seq<string>)
    ensures var kept := NonBlank(rows);
            && (forall row :: row in kept <==> row in rows && !IsBlank(row))
            && ((forall i | 0 <= i < |rows| :: !IsBlank(rows[i])) ==> kept == rows)
  {
    if rows != [] {
      var init := rows[..|rows| - 1];
      NonBlankFilters(init);
      assert rows == init + [Last(rows)];
    }
  }

  /** Filtering keeps the order: the rows kept from two consecutive blocks
      are those kept from the first, then those kept from the second. */
  lemma {:induction false} NonBlankConcat(front: seq<string>, back: seq<string>)
    ensures NonBlank(front + back) == NonBlank(front) + NonBlank(back)
    decreases |back|
  {
    if back == [] {
      assert front + back == front;
    } else {
      var init, row := back[..|back| - 1], Last(back);
      var tail := if IsBlank(row) then [] else [row];
      assert (front + back)[..|front + back| - 1] == front + init;
      assert Last(front + back) == row;
      assert NonBlank(back) == NonBlank(init) + tail;
      NonBlankConcat(front, init);
    }
  }

  lemma NonBlankSnoc(rows: seq<string>, row: string)
    ensures NonBlank(rows + [row]) == NonBlank(rows) + if IsBlank(row) then [] else [row]
  {
    assert (rows + [row])[..|rows|] == rows;
  }

  /** How many input lines `ReadHeaderRows` consumes: `numHeaderRows`, none
      when it is negative, and no more than the input holds. */
  function HeaderSpan(numHeaderRows: int, available: nat): nat
  {
    if numHeaderRows <= 0 then 0
    else if numHeaderRows < available then numHeaderRows
    else available
  }

  /** The header block captured from the start of the input. */
  function HeaderRows(lines: seq<string>, numHeaderRows: int): seq<string>
  {
    NonBlank(lines[..HeaderSpan(numHeaderRows, |lines|)])
  }

  /** The header block holds at most `numHeaderRows` lines, all of them
      non-blank lines from the consumed prefix; with enough input and no
      blank header line it is exactly that prefix. */
  lemma HeaderCapture(lines: seq<string>, numHeaderRows: int)
    ensures var span, header := HeaderSpan(numHeaderRows, |lines|), HeaderRows(lines, numHeaderRows);
            && span <= |lines|
            && (numHeaderRows <= 0 ==> span == 0)
            && (0 <= numHeaderRows <= |lines| ==> span == numHeaderRows)
            && (numHeaderRows > |lines| ==> span == |lines|)
            && (numHeaderRows <= 0 ==> header == [])
            && |header| <= span
            && (forall i | 0 <= i < |header| :: !IsBlank(header[i]) && header[i] in lines[..span])
            && ((forall i | 0 <= i < span :: !IsBlank(lines[i])) ==> header == lines[..span])
  {
    NonBlankFilters(lines[..HeaderSpan(numHeaderRows, |lines|)]);
  }

  // ---------------------------------------------------------------- rotation

  /** Line 161: the incremented counter exceeds the limit. */
  function RotationDue(lineCounter: int64, maxLinesPerFile: int64): bool
    requires lineCounter < Int64Max
  {
    lineCounter + 1 > maxLinesPerFile
  }

  /** The sentinel of line 109 makes the first call of `GetOutputFile` open a
      file for every limit except long.MaxValue, so for every limit `-m` can
      set (line 23 parses it as an `int`). */
  lemma SentinelOpensFirstFile(maxLinesPerFile: int64)
    ensures RotationDue(LineCounterSentinel, maxLinesPerFile) <==> maxLinesPerFile < Int64Max
    ensures maxLinesPerFile <= Int32Max ==> RotationDue(LineCounterSentinel, maxLinesPerFile)
  {
  }

  /** Data lines per output file: the limit, or one when the limit is below
      one (zero is refused by `Main`, negative limits are not). */
  function ChunkSize(maxLinesPerFile: int): nat
  {
    if maxLinesPerFile < 1 then 1 else maxLinesPerFile
  }

  /** With `lineCounter` lines in the open file, line 161 fires exactly when
      that file already holds a full piece. */
  lemma RotationDueWhenPieceFull(lineCounter: int64, maxLinesPerFile: int64)
    requires 1 <= lineCounter <= ChunkSize(maxLinesPerFile) && lineCounter < Int64Max
    ensures RotationDue(lineCounter, maxLinesPerFile) <==> lineCounter >= ChunkSize(maxLinesPerFile)
  {
  }

  // ---------------------------------------------------------------- layout

  /** Lines 174-177: the header block goes into file 1 and, when
      `RepeatHeaderRows` is set, into every later file. */
  function FileHeader(repeatHeaderRows: bool, fileNumber: nat, headerRows: seq<string>): seq<string>
  {
    if repeatHeaderRows || fileNumber == 1 then headerRows else []
  }

  /** Output file `fileNumber`, holding its header and then `piece`. */
  function NumberedFile(naming: Naming, repeatHeaderRows: bool, headerRows: seq<string>, fileNumber: nat, piece: seq<string>): OutputFile
  {
    OutputFile(naming.FileName(fileNumber), FileHeader(repeatHeaderRows, fileNumber, headerRows) + piece)
  }

  /** Output files numbered from 1, file i holding its header and piece i. */
  function Layout(naming: Naming, repeatHeaderRows: bool, headerRows: seq<string>, pieces: seq<seq<string>>): seq<OutputFile>
  {
    seq(|pieces|, i requires 0 <= i < |pieces| => NumberedFile(naming, repeatHeaderRows, headerRows, i + 1, pieces[i]))
  }

  /** Appending a piece appends its numbered file. */
  lemma LayoutAppendPiece(naming: Naming, repeatHeaderRows: bool, headerRows: seq<string>,
                          pieces: seq<seq<string>>, piece: seq<string>)
    ensures Layout(naming, repeatHeaderRows, headerRows, pieces + [piece]) ==
              Layout(naming, repeatHeaderRows, headerRows, pieces)
                + [NumberedFile(naming, repeatHeaderRows, headerRows, |pieces| + 1, piece)]
  {
    var after := Layout(naming, repeatHeaderRows, headerRows, pieces + [piece]);
    var expected := Layout(naming, repeatHeaderRows, headerRows, pieces)
                      + [NumberedFile(naming, repeatHeaderRows, headerRows, |pieces| + 1, piece)];
    assert |after| == |expected|;
    forall i | 0 <= i < |after|
      ensures after[i] == expected[i]
    {
      if i < |pieces| {
        assert (pieces + [piece])[i] == pieces[i];
      }
    }
  }

  /** Extending the last piece by a line extends the last file by it. */
  lemma LayoutExtendLastPiece(naming: Naming, repeatHeaderRows: bool, headerRows: seq<string>,
                              pieces: seq<seq<string>>, line: string)
    requires pieces != []
    ensures var files := Layout(naming, repeatHeaderRows, headerRows, pieces);
            Layout(naming, repeatHeaderRows, headerRows, pieces[..|pieces| - 1] + [Last(pieces) + [line]]) ==
              files[..|files| - 1] + [OutputFile(Last(files).name, Last(files).lines + [line])]
  {
    var n := |pieces|;
    var init := pieces[..n - 1];
    assert pieces == init + [Last(pieces)];
    LayoutAppendPiece(naming, repeatHeaderRows, headerRows, init, Last(pieces));
    LayoutAppendPiece(naming, repeatHeaderRows, headerRows, init, Last(pieces) + [line]);
    var files := Layout(naming, repeatHeaderRows, headerRows, pieces);
    assert files[..n - 1] == Layout(naming, repeatHeaderRows, headerRows, init);
    var h := FileHeader(repeatHeaderRows, n, headerRows);
    assert Last(files) == NumberedFile(naming, repeatHeaderRows, headerRows, n, Last(pieces));
    assert h + (Last(pieces) + [line]) == (h + Last(pieces)) + [line];
  }

  // ---------------------------------------------------------------- session state

  /** What `SplitFile` fixes before its first data line: how files are named,
      the header rule and the limit. */
  datatype SplitPlan = SplitPlan(naming: Naming, repeatHeaderRows: bool, headerRows: seq<string>, maxLinesPerFile: int64)

  /** The state `SplitFile` threads through `GetOutputFile`, as values: the
      files already closed, the open one (if any), and the two counters. */
  datatype SessionState = SessionState(closed: seq<OutputFile>, current: Option<OutputFile>, lineCounter: int64, fileCounter: nat)

  /** Lines 109-110: no writer, the sentinel, no file yet. */
  const InitialState := SessionState([], None, LineCounterSentinel, 0)

  /** Every output file of a state, the open one last. */
  function Files(st: SessionState): seq<OutputFile>
  {
    st.closed + if st.current.Some? then [st.current.value] else []
  }

  /** `GetOutputFile` on values (lines 158-181): the counter is incremented;
      when line 161 fires, the open file (if any) is closed and file
      `fileCounter + 1` is opened holding its header. */
  function CountLine(plan: SplitPlan, st: SessionState): (next: SessionState)
    requires st.lineCounter < Int64Max
    ensures st.current.Some? ==> next.current.Some?
  {
    if RotationDue(st.lineCounter, plan.maxLinesPerFile) then
      var n := st.fileCounter + 1;
      SessionState(Files(st), Some(OutputFile(plan.naming.FileName(n), FileHeader(plan.repeatHeaderRows, n, plan.headerRows))), 1, n)
    else
      st.(lineCounter := st.lineCounter + 1)
  }

  /** Line 125 on values: the line goes to the end of the open file. */
  function Emit(st: SessionState, line: string): SessionState
    requires st.current.Some?
  {
    st.(current := Some(st.current.value.(lines := st.current.value.lines + [line])))
  }

  /** A state that has taken the data lines `seen`: its files are their
      layout, no file is open before the first line, and the counters are the
      number of files and the data lines in the open one. */
  predicate Tracks(plan: SplitPlan, st: SessionState, seen: seq<string>)
  {
    var pieces := Chunks(seen, ChunkSize(plan.maxLinesPerFile));
    && Files(st) == Layout(plan.naming, plan.repeatHeaderRows, plan.headerRows, pieces)
    && (st.current.None? <==> seen == [])
    && (st.current.None? ==> st.lineCounter == LineCounterSentinel && st.fileCounter == 0)
    && (st.current.Some? ==> st.lineCounter as int == |Last(pieces)| <= |seen| && st.fileCounter == |pieces|)
  }

  /** The loop body of `SplitFile` (lines 123-126) keeps `Tracks`: counting
      one more line and writing it yields the layout of the longer input. */
  lemma TrackedStep(plan: SplitPlan, st: SessionState, seen: seq<string>, line: string)
    requires plan.maxLinesPerFile <= Int32Max && Tracks(plan, st, seen)
    ensures st.lineCounter < Int64Max
    ensures Tracks(plan, Emit(CountLine(plan, st), line), seen + [line])
  {
    var size := ChunkSize(plan.maxLinesPerFile);
    ChunksSnoc(seen, line, size);
    if st.current.None? {
      TrackedFirstLine(plan, st, seen, line);
    } else {
      var pieces := Chunks(seen, size);
      assert 1 <= |Last(pieces)| <= size;
      RotationDueWhenPieceFull(st.lineCounter, plan.maxLinesPerFile);
      if |Last(pieces)| >= size {
        TrackedRotation(plan, st, seen, line);
      } else {
        TrackedSameFile(plan, st, seen, line);
      }
    }
  }

  /** The session after the data lines `data` on values: one `GetOutputFile`
      and one write per line, starting from `InitialState`. */
  function Replay(plan: SplitPlan, data: seq<string>): (st: SessionState)
    requires plan.maxLinesPerFile <= Int32Max
    ensures st.current.None? <==> data == []
    ensures st.current.None? ==> st.lineCounter == LineCounterSentinel
    ensures st.current.Some? ==> 1 <= st.lineCounter <= ChunkSize(plan.maxLinesPerFile)
  {
    if data == [] then InitialState
    else Emit(CountLine(plan, Replay(plan, data[..|data| - 1])), Last(data))
  }

  /** One more data line: `GetOutputFile` leaves a file open for it, and the
      line is written there. */
  lemma ReplaySnoc(plan: SplitPlan, data: seq<string>, line: string)
    requires plan.maxLinesPerFile <= Int32Max
    ensures CountLine(plan, Replay(plan, data)).current.Some?
    ensures Replay(plan, data + [line]) == Emit(CountLine(plan, Replay(plan, data)), line)
  {
    assert (data + [line])[..|data|] == data;
  }

  /** Replaying the loop line by line produces exactly the layout of the
      data lines. */
  lemma {:induction false} ReplayTracks(plan: SplitPlan, data: seq<string>)
    requires plan.maxLinesPerFile <= Int32Max
    ensures Tracks(plan, Replay(plan, data), data)
  {
    if data != [] {
      var init, line := data[..|data| - 1], Last(data);
      assert init + [line] == data;
      var prev := Replay(plan, init);
      assert Replay(plan, data) == Emit(CountLine(plan, prev), line);
      ReplayTracks(plan, init);
      TrackedStep(plan, prev, init, line);
    }
  }

  /** The first data line opens file 1 with the header block and lands in it. */
  lemma TrackedFirstLine(plan: SplitPlan, st: SessionState, seen: seq<string>, line: string)
    requires plan.maxLinesPerFile <= Int32Max && Tracks(plan, st, seen) && st.current.None?
    ensures Tracks(plan, Emit(CountLine(plan, st), line), seen + [line])
  {
    var size := ChunkSize(plan.maxLinesPerFile);
    assert seen == [];
    assert st.closed == [];
    assert Chunks(seen + [line], size) == [[line]] by {
      assert seen + [line] == [line];
    }
    FirstLineOpensFileOne(plan, st, line);
    LayoutSinglePiece(plan.naming, plan.repeatHeaderRows, plan.headerRows, [line]);
  }

  /** From the initial state, one line opens file 1 holding the header block
      and that line, with both counters at 1. */
  lemma FirstLineOpensFileOne(plan: SplitPlan, st: SessionState, line: string)
    requires plan.maxLinesPerFile <= Int32Max
    requires st == InitialState
    ensures Emit(CountLine(plan, st), line) ==
              SessionState([], Some(NumberedFile(plan.naming, plan.repeatHeaderRows, plan.headerRows, 1, [line])), 1, 1)
  {
    SentinelOpensFirstFile(plan.maxLinesPerFile);
  }

  /** A single piece is laid out as file 1. */
  lemma LayoutSinglePiece(naming: Naming, repeatHeaderRows: bool, headerRows: seq<string>, piece: seq<string>)
    ensures Layout(naming, repeatHeaderRows, headerRows, [piece]) == [NumberedFile(naming, repeatHeaderRows, headerRows, 1, piece)]
  {
    LayoutAppendPiece(naming, repeatHeaderRows, headerRows, [], piece);
    assert [] + [piece] == [piece];
  }

  /** A line arriving behind a full piece closes the open file and opens the
      next one. */
  lemma TrackedRotation(plan: SplitPlan, st: SessionState, seen: seq<string>, line: string)
    requires plan.maxLinesPerFile <= Int32Max && Tracks(plan, st, seen) && st.current.Some?
    requires |Last(Chunks(seen, ChunkSize(plan.maxLinesPerFile)))| >= ChunkSize(plan.maxLinesPerFile)
    requires RotationDue(st.lineCounter, plan.maxLinesPerFile)
    requires Chunks(seen + [line], ChunkSize(plan.maxLinesPerFile)) ==
               Chunks(seen, ChunkSize(plan.maxLinesPerFile)) + [[line]]
    ensures Tracks(plan, Emit(CountLine(plan, st), line), seen + [line])
  {
    var pieces := Chunks(seen, ChunkSize(plan.maxLinesPerFile));
    LayoutAppendPiece(plan.naming, plan.repeatHeaderRows, plan.headerRows, pieces, [line]);
  }

  /** A line arriving behind a piece that is not full goes to the open file. */
  lemma TrackedSameFile(plan: SplitPlan, st: SessionState, seen: seq<string>, line: string)
    requires plan.maxLinesPerFile <= Int32Max && Tracks(plan, st, seen) && st.current.Some?
    requires !RotationDue(st.lineCounter, plan.maxLinesPerFile)
    requires var pieces := Chunks(seen, ChunkSize(plan.maxLinesPerFile));
             Chunks(seen + [line], ChunkSize(plan.maxLinesPerFile)) == pieces[..|pieces| - 1] + [Last(pieces) + [line]]
    ensures Tracks(plan, Emit(CountLine(plan, st), line), seen + [line])
  {
    var pieces := Chunks(seen, ChunkSize(plan.maxLinesPerFile));
    LayoutExtendLastPiece(plan.naming, plan.repeatHeaderRows, plan.headerRows, pieces, line);
    var files := Files(st);
    assert files[..|files| - 1] == st.closed && Last(files) == st.current.value;
  }

  // ---------------------------------------------------------------- outcome

  /** Splitting one input file: the header block is captured, the remaining
      lines are cut into pieces of `ChunkSize` lines and piece i goes to
      output file i + 1. An input without data lines opens no output file
      and fails at the final flush (line 128). */
  function SplitOutcome(o: CommandLineOptions, inputFile: string, lines: seq<string>): (r: Result<seq<OutputFile>, SplitError>)
    requires o.filePattern.Some? && o.outputFolder.Some?
    ensures r.Err? <==> |lines| == 0 || |lines| <= o.numHeaderRows
    ensures r.Ok? ==> |r.value| >= 1
  {
    var span := HeaderSpan(o.numHeaderRows, |lines|);
    var data := lines[span..];
    if data == [] then Err(NoOutputFileOpened)
    else
      var pieces := Chunks(data, ChunkSize(o.maxLinesPerFile));
      Ok(Layout(NamingFor(o, inputFile), o.repeatHeaderRows, HeaderRows(lines, o.numHeaderRows), pieces))
  }

  /** Replaying the loop of `SplitFile` over the data lines, from the
      initial state, ends in `SplitOutcome`: no open file exactly when it
      fails, and otherwise its files. */
  lemma ReplayMatchesOutcome(o: CommandLineOptions, inputFile: string, lines: seq<string>)
    requires o.filePattern.Some? && o.outputFolder.Some? && o.maxLinesPerFile <= Int32Max
    ensures var plan := SplitPlan(NamingFor(o, inputFile), o.repeatHeaderRows, HeaderRows(lines, o.numHeaderRows), o.maxLinesPerFile);
            var st := Replay(plan, lines[HeaderSpan(o.numHeaderRows, |lines|)..]);
            SplitOutcome(o, inputFile, lines) == if st.current.None? then Err(NoOutputFileOpened) else Ok(Files(st))
  {
    var plan := SplitPlan(NamingFor(o, inputFile), o.repeatHeaderRows, HeaderRows(lines, o.numHeaderRows), o.maxLinesPerFile);
    ReplayTracks(plan, lines[HeaderSpan(o.numHeaderRows, |lines|)..]);
  }

  /** The data lines of each output file: what follows its header. */
  function DataLines(files: seq<OutputFile>, repeatHeaderRows: bool, headerRows: seq<string>): seq<seq<string>>
  {
    seq(|files|, i requires 0 <= i < |files| =>
      var h := |FileHeader(repeatHeaderRows, i + 1, headerRows)|;
      if h <= |files[i].lines| then files[i].lines[h..] else [])
  }

  /** There are ceil(L / M) output files for L data lines and a limit M of at least one. */
  lemma OutputFileCount(o: CommandLineOptions, inputFile: string, lines: seq<string>)
    requires o.filePattern.Some? && o.outputFolder.Some?
    requires SplitOutcome(o, inputFile, lines).Ok?
    ensures var dataCount, size := |lines| - HeaderSpan(o.numHeaderRows, |lines|), ChunkSize(o.maxLinesPerFile);
            |SplitOutcome(o, inputFile, lines).value| == (dataCount + size - 1) / size
  {
    var span := HeaderSpan(o.numHeaderRows, |lines|);
    ChunkCountIsCeiling(lines[span..], ChunkSize(o.maxLinesPerFile));
  }

  /** Every output file starts with its header (the header block exactly in
      file 1 and, with `RepeatHeaderRows`, in every file; nothing otherwise);
      the data lines after it, file by file, are the input's lines after the
      header in their original order; each file holds at least one and at
      most `ChunkSize` data lines, and all but the last are full. */
  lemma OutputIsLosslessAndBounded(o: CommandLineOptions, inputFile: string, lines: seq<string>)
    requires o.filePattern.Some? && o.outputFolder.Some?
    requires SplitOutcome(o, inputFile, lines).Ok?
    ensures var files, header := SplitOutcome(o, inputFile, lines).value, HeaderRows(lines, o.numHeaderRows);
            var data, size := DataLines(files, o.repeatHeaderRows, header), ChunkSize(o.maxLinesPerFile);
            && (forall i | 0 <= i < |files| ::
                  files[i].lines == FileHeader(o.repeatHeaderRows, i + 1, header) + data[i])
            && Flatten(data) == lines[HeaderSpan(o.numHeaderRows, |lines|)..]
            && (forall i | 0 <= i < |data| :: 1 <= |data[i]| <= size)
            && (forall i | 0 <= i < |data| - 1 :: |data[i]| == size)
            && (o.maxLinesPerFile >= 1 ==> forall i | 0 <= i < |data| :: |data[i]| <= o.maxLinesPerFile)
  {
    var span := HeaderSpan(o.numHeaderRows, |lines|);
    var header := HeaderRows(lines, o.numHeaderRows);
    var pieces := Chunks(lines[span..], ChunkSize(o.maxLinesPerFile));
    LayoutDataLines(NamingFor(o, inputFile), o.repeatHeaderRows, header, pieces);
  }

  /** Each file of a layout is its header followed by its piece, so the
      data lines of the layout are the pieces. */
  lemma LayoutDataLines(naming: Naming, repeatHeaderRows: bool, headerRows: seq<string>, pieces: seq<seq<string>>)
    ensures var files := Layout(naming, repeatHeaderRows, headerRows, pieces);
            && (forall i | 0 <= i < |files| :: files[i].lines == FileHeader(repeatHeaderRows, i + 1, headerRows) + pieces[i])
            && DataLines(files, repeatHeaderRows, headerRows) == pieces
  {
    var files := Layout(naming, repeatHeaderRows, headerRows, pieces);
    var data := DataLines(files, repeatHeaderRows, headerRows);
    forall i | 0 <= i < |pieces|
      ensures data[i] == pieces[i]
    {
      var h := FileHeader(repeatHeaderRows, i + 1, headerRows);
      assert files[i].lines == h + pieces[i];
      assert files[i].lines[|h|..] == pieces[i];
    }
  }

  /** Output files are numbered 1, 2, 3, ... in order, with no gap and no
      repeated name. */
  lemma OutputNamesNumbered(o: CommandLineOptions, inputFile: string, lines: seq<string>)
    requires o.filePattern.Some? && o.outputFolder.Some?
    requires SplitOutcome(o, inputFile, lines).Ok?
    ensures var files, naming := SplitOutcome(o, inputFile, lines).value, NamingFor(o, inputFile);
            && (forall i | 0 <= i < |files| :: files[i].name == naming.FileName(i + 1))
            && (forall i, j | 0 <= i < j < |files| :: files[i].name != files[j].name)
  {
    var span := HeaderSpan(o.numHeaderRows, |lines|);
    var pieces := Chunks(lines[span..], ChunkSize(o.maxLinesPerFile));
    LayoutNames(NamingFor(o, inputFile), o.repeatHeaderRows, HeaderRows(lines, o.numHeaderRows), pieces);
    LayoutNamesDistinct(NamingFor(o, inputFile), o.repeatHeaderRows, HeaderRows(lines, o.numHeaderRows), pieces);
  }

  /** File i of a layout is named with number i + 1. */
  lemma LayoutNames(naming: Naming, repeatHeaderRows: bool, headerRows: seq<string>, pieces: seq<seq<string>>)
    ensures var files := Layout(naming, repeatHeaderRows, headerRows, pieces);
            forall i | 0 <= i < |files| :: files[i].name == naming.FileName(i + 1)
  {
  }

  /** No two files of a layout share a name. */
  lemma LayoutNamesDistinct(naming: Naming, repeatHeaderRows: bool, headerRows: seq<string>, pieces: seq<seq<string>>)
    ensures var files := Layout(naming, repeatHeaderRows, headerRows, pieces);
            forall i, j | 0 <= i < j < |files| :: files[i].name != files[j].name
  {
    var files := Layout(naming, repeatHeaderRows, headerRows, pieces);
    forall i, j | 0 <= i < j < |files|
      ensures files[i].name != files[j].name
    {
      assert files[i].name == naming.FileName(i + 1) && files[j].name == naming.FileName(j + 1);
      naming.FileNamesDistinct(i + 1, j + 1);
    }
  }
}

=== FILE: wrappers.dfy ===
/** `Option` stands for a C# reference that may be null, `Result` for a value
    or the exception that replaces it. */
module Wrappers {

  datatype Option<+T> = None | Some(value: T)

  datatype Result<+T, +E> = Ok(value: T) | Err(error: E)
}
